=== FILE: README.md ===
# Background-removal API: request orchestration, modelled in Dafny

The server accepts an image, either as a multipart upload or as a URL it fetches. It
stages the image under `uploads/` and spawns `python3 model.py <input> <output>`. It
decides from the child's exit code and output streams whether the run succeeded. It then
checks that the result exists under `outputs/`, sends it back, and deletes both files
five seconds later. This project models that orchestration and the exit-code/marker
protocol of `model.py` that it relies on. Every operation is a pure function over an
abstract filesystem.

- `base.dfy` (`Base`): bytes, `Option` and `Result`.
- `text.dfy` (`Text`): JavaScript's `String.prototype.includes`. It is executable
  (`Includes`) and proved equal to a reference definition of substring (`IsSubstring`).
- `pyrepr.dfy` (`PythonRepr`): Python's `repr` of a string, which quotes the path in an
  `OSError` message, with the parser's reading of it as a proved inverse.
- `filesystem.dfy` (`FileSystem`): the filesystem, as regular files with contents plus a
  set of directories. It also holds Python's `os.path.dirname`, file writes and unlinks,
  and the error texts Node and Python give for them.
- `naming.dfy` (`Naming`): version-4 uuid tokens and the staged and output names.
  - Upload names are `<uuid>-<originalname>` and URL names are `url-image-<uuid>.jpg`.
    Outputs are `outputs/processed-<staged name>`.
  - A parser inverts the naming. The injectivity lemmas and the disjointness lemma for
    concurrent requests follow from that parser.
- `engine.dfy` (`Engine`): `runPythonModel`'s classification of a child run.
- `http.dfy` (`Http`): responses, as status plus JSON error body or file body.
- `multer.dfy` (`Multer`): the upload middleware. It covers the disk-storage file name,
  the mimetype filter and the 10 MiB limit.
- `routes.dfy` (`Routes`): the error middleware, the two request handlers and the
  deferred cleanup task.
  - Each handler returns the response, the filesystem after the handler, the cleanup left
    pending, and the external calls it made (URL fetches and engine spawns).
  - The engine is a parameter of type `(Fs, input, output) -> (child run, Fs)`.
- `script.dfy` (`ScriptText`, `Script`): `model.py`. The `rembg.remove` call is an opaque
  function that may raise. Failures the filesystem cannot explain are parameters: import,
  `makedirs`, read and write faults. So is the text the library writes to stderr while it
  is imported and while `remove` runs (warnings, the progress of a model download).
- `end_to_end.dfy` (`EndToEnd`): the handlers with the real script as engine. It holds
  the round-trip lemmas for both endpoints and the failure paths of both endpoints.

## Behaviour as written

The model follows the code, including where the code is looser than its documentation:

- A file with a disallowed mimetype is rejected with a plain `Error`. The error middleware
  turns that into 500 `Internal server error`, not a 400 (`Routes.UploadAdmissionStatus`).
  Only a multer size-limit error becomes a 400.
- The URL handler never deletes its staged input when processing fails. It also schedules
  no cleanup, so the file stays in `uploads/` (`EndToEnd.UrlFailureLeavesInput`).
- The upload handler deletes only the staged input on failure. If `model.py` created a
  partial output before a write error, that output stays in `outputs/`.
- The deferred cleanup unlinks the input and then the output inside one `try`. If the
  input is already gone, the output is never deleted (`Routes.RunCleanup`).
- A run counts as a success only with exit code 0 and `SUCCESS` in stdout. The script can
  print `SUCCESS` inside an error line while exiting 1. A missing input path containing that
  word does this, and the run is then a failure (`EndToEnd.MarkerWithoutZeroExitFails`).
- The failure details come from `error || output`: when the library wrote anything to
  stderr, that text is reported and the script's `ERROR:` line is lost. The end-to-end
  failure lemmas state the details as `Python model failed: ` plus the library's stderr
  text, or the `ERROR:` line when that text is empty (`EndToEnd.ScriptJobThrows`).
- The real script prints `SUCCESS` only after the output is written. So with it as the
  engine, `Output file was not created` cannot occur
  (`EndToEnd.OutputNeverMissingAfterScriptSuccess`). The `fs.access` existence check
  (server.js:112-117) still matters for any other engine.

## Model

| member | source | states |
|---|---|---|
| `Text.Includes` | server.js:74 | `output.includes('SUCCESS')` returns true exactly when the marker occurs at some index of the accumulated stdout. |
| `Engine.Classify` | server.js:73-83 | The result is a success iff the child closed with exit code 0 and stdout contains `SUCCESS`. A success carries stdout. A failed run carries `Python model failed: ` plus stderr, or plus stdout when stderr is empty. A spawn error carries `Failed to start Python process: ` plus its message. |
| `Engine.ExitCodeAndMarkerBothNeeded` | server.js:74 | For every stdout: exit 0 without the marker anywhere fails; any non-zero exit code or a signal fails, whatever was printed; exit 0 with the marker between any two strings succeeds and carries that stdout. |
| `Multer.FileFilter` | server.js:44-51 | Exactly `image/jpeg`, `image/jpg`, `image/png` and `image/webp` are accepted, all of them `image/` types. |
| `Multer.Admit` | server.js:29-52 | A missing file or an empty file name means no file. An admitted upload is in the `image` field, has an allowed type and is at most 10 MiB. It is staged at `uploads/<uuid>-<originalname>` with its content, and nothing else changes. A named part in another field is refused with multer's `LIMIT_UNEXPECTED_FILE` before the filter runs. A disallowed type in the `image` field is refused with the filter's plain error. An allowed part whose staging write fails is refused with Node's `open` error. Otherwise an allowed part is admitted iff it is at most 10 MiB, and the only size-limit rejection is of an allowed `image` part over the limit. |
| `Routes.UploadRefusedAsServerError` | server.js:29-52 | A named part in a field other than `image`, or an allowed image whose staging write fails, is answered 500 `Internal server error` by the error middleware (server.js:241-250). Nothing is spawned, no cleanup is pending and the filesystem is unchanged. |
| `Routes.ErrorMiddleware` | server.js:241-250 | The response is 400 `File too large. Maximum size is 10MB.` iff the error is a multer `LIMIT_FILE_SIZE` error. Every other error is 500 `Internal server error`. |
| `Routes.RunJob` | server.js:109-124 | The file is served only if the engine result is a success and the output path exists afterwards. A success with a missing output throws `Output file was not created`. An engine failure throws its own message. A send error gives 500 `Failed to send processed image`. The job itself changes no file. |
| `Routes.UnlinkQuietly` | server.js:141-148 | Best-effort removal of the staged input. Afterwards the input is gone, every other file is unchanged, and no error escapes. |
| `Routes.ServeUpload` | server.js:95-155 | A request the middleware does not admit spawns nothing and changes nothing. No file gives 400 `No image file provided`; a rejection gives the error middleware's answer. An admitted request spawns the engine once, on its own input and output paths. Cleanup is pending exactly when the run succeeded and left the output; then the response is 200 with the output's bytes iff the file was delivered, and 500 `Failed to send processed image` otherwise. Any other outcome removes only the input and answers 500 `Failed to process image`, with the engine's failure message or `Output file was not created` as details. |
| `Routes.ServeUrl` | server.js:158-183 | A missing or empty `imageUrl` gives 400 before any fetch. A rejected fetch, a non-ok status (`Failed to fetch image: <statusText>`), a failed download and a failed write each answer 500 `Failed to process image from URL` with that error's message, after the fetch alone and with the filesystem unchanged. Otherwise the download is written to `uploads/url-image-<uuid>.jpg` and the request continues as `Routes.ServeStaged`. |
| `Routes.ServeStaged` | server.js:185-220 | The engine runs exactly once, on the job's two paths, and the handler deletes nothing. Cleanup is pending exactly when the run succeeded and left the output; then the response is 200 with the output's bytes iff the file was delivered. An engine failure is answered 500 with its message as details, a missing output with `Output file was not created`. |
| `Routes.RunCleanup` | server.js:126-135 | If the input is present, both input and output are removed. If the input is absent, nothing is removed, not even the output. Directories are untouched. |
| `Routes.CleanupUndoesJob` | server.js:127-131 | For a job whose two distinct paths were absent, the cleanup after writing the input and then the output restores the filesystem exactly. |
| `Routes.UploadAdmissionStatus` | server.js:39-52 | For a part in the `image` field: a disallowed type gives 500 whatever the size; an allowed oversized file gives 400 with the filesystem unchanged; neither spawns the engine. An allowed file within the limit reaches the engine once. |
| `Routes.CleanupIdempotent` | server.js:127-134 | Running the cleanup task twice leaves the same filesystem as running it once. |
| `Routes.CleanupSparesOtherJobs` | server.js:127-134 | One job's cleanup leaves both files of any different job as they were, contents included. |
| `Naming.StagedNameShape` | server.js:33-36 | A staged name starts with `url-image-` exactly for URL requests. For an upload whose client name has no '/', the staged name is a single path component. |
| `Naming.StagedNameRoundTrip` | server.js:33-36 | A staged file name parses back to its token and origin, for both `<uuid>-<originalname>` and `url-image-<uuid>.jpg`. |
| `Naming.PathsRoundTrip` | server.js:101-103 | `InputPath` (`uploads/<staged name>`) and `OutputPath` (`outputs/processed-<staged name>`) are invertible: input paths and output paths parse back to their job, and neither parses as the other kind. |
| `Naming.JobsDoNotShareFiles` | server.js:173-176 | Two different jobs have different inputs and different outputs, whatever their original file names. No input is ever an output. |
| `Naming.ConcurrentJobsDisjoint` | server.js:33-36 | Jobs with pairwise distinct tokens have pairwise disjoint file pairs. |
| `Naming.JobPathsInTheirDirs` | server.js:29-34 | The staged input of a job whose client name has no '/' lies directly in `uploads`, and its output directly in `outputs`, by Python's `dirname`. |
| `FileSystem.DirName` | model.py:36 | `os.path.dirname` returns a prefix of its argument, the empty string for a path without '/', and a result without trailing '/' unless it consists of slashes only. |
| `FileSystem.DirNameOfChild` | model.py:36 | `os.path.dirname(dir + "/" + name)` is `dir` when `name` has no '/' and `dir` does not end in one. |
| `FileSystem.ReadFile` | model.py:8-9 | Reading succeeds exactly on a regular file and yields its contents. It fails with "is a directory" exactly on a directory whose parent is not a regular file. |
| `FileSystem.WriteFile` | server.js:179 | Writing succeeds exactly when the path is named, is no directory and its parent is an existing directory; it then sets that one file and nothing else. A parent that is a regular file gives "not a directory", a directory gives "is a directory", and a missing path or parent gives "no such file or directory". |
| `FileSystem.Unlink` | server.js:129-130 | Unlinking succeeds exactly on a regular file and then removes only that file. It fails with "is a directory" exactly on a directory whose parent is not a regular file. |
| `PythonRepr.Repr` | model.py:19-20 | The file name in `str(OSError)` is written by `repr`: the literal is at least two characters longer than the text and starts and ends with the chosen quote. |
| `PythonRepr.ReprRoundTrip` | model.py:19-20 | The literal `repr` writes reads back, through Python's escapes (`\\`, `\'`, `\"`, `\t`, `\n`, `\r`, `\xNN`), to exactly the original text, so no two paths are reported alike. |
| `PythonRepr.ReprOfPlainText` | model.py:19-20 | A text of printable characters without `'` or `\` is written as `'<text>'` unchanged. |
| `Script.RemoveBackground` | model.py:6-21 | True only after the library result on the input was written to the output and `SUCCESS` was printed. Every exception is printed as `ERROR: ` plus its text: a failed read (the library is not called), the library's own exception, a failed `open` and a failed write (leaving the partial file). An `OSError` names its path as `repr` writes it. Only the output path can change, contents included. |
| `Script.Main` | model.py:23-44 | The exit code is 0 or 1, and stderr starts with what the imports wrote. Exit 0 implies two arguments, the library result written to the output, `SUCCESS` in stdout, and stderr holding only the library's own text. The wrong argument count prints the usage line, never the marker. A missing input is reported with nothing written. A missing output directory is created. A failed import or `makedirs` puts a traceback on stderr and nothing on stdout; exceptions caught in `remove_background` go to stdout. Only the output path can change, contents included. |
| `ScriptText.UsageHasNoMarker` | model.py:24-26 | The usage line does not contain `SUCCESS`. |
| `EndToEnd.PythonEngine` | server.js:55-60 | A spawn error leaves the filesystem untouched. Otherwise the child always exits with code 0 or 1, never by a signal (native crashes and kills are left out), and no file other than the output changes. |
| `EndToEnd.ClassifierAgreesWithScript` | model.py:13-17 | The server calls a script run a success iff the script exited 0, and then the output holds the library's result. For errors the script caught with stderr empty, the reported message is `Python model failed: ` plus the script's stdout. |
| `EndToEnd.MarkerWithoutZeroExitFails` | model.py:32-34 | For any missing input path containing `SUCCESS`, the script prints the marker in stdout and exits 1, and the run is classified as a failure. |
| `EndToEnd.OutputNeverMissingAfterScriptSuccess` | server.js:112-117 | With the real script as engine, the job never throws `Output file was not created`. |
| `EndToEnd.ScriptSucceeds` | model.py:36-44 | When the input is a file, the output's directory exists and the library call succeeds, a run in which nothing else raises exits 0 and adds exactly the output file, whatever the library writes to stderr. |
| `EndToEnd.ScriptJobServes` | server.js:110-124 | A job whose script run succeeds is answered 200 with the library's bytes, and the output is added to the filesystem. |
| `EndToEnd.ScriptJobThrows` | model.py:19-21 | A job whose library call raises throws `Python model failed: ` plus the library's stderr text or, when that is empty, `ERROR: <message>`, with the filesystem unchanged. |
| `EndToEnd.AdmitWellFormed` | server.js:33-50 | A well-formed, allowed, in-limit upload on a provisioned filesystem with a fresh token is staged with its content. |
| `EndToEnd.UploadRoundTrip` | server.js:95-136 | A successful upload is answered 200 with the processed bytes. Once the pending cleanup runs, the filesystem is exactly as before the request. |
| `EndToEnd.UrlRoundTrip` | server.js:158-212 | For any ok status and status text, a successful URL request is answered 200 with the processed bytes. Once the pending cleanup runs, the filesystem is exactly as before the request. |
| `EndToEnd.UploadFailureRemovesInput` | server.js:138-153 | When the library raises, the upload handler answers 500 with the engine's failure message in the details. It removes its staged input, leaving the filesystem as before. |
| `EndToEnd.UrlFailureLeavesInput` | server.js:214-220 | When the library raises after any ok fetch, the URL handler answers 500 with the engine's failure message in the details. Its staged input stays on disk and no cleanup is pending. |

## Left out

- Express routing, CORS, JSON body parsing (including the 500 a malformed JSON body gets), the `/health` and `/` endpoints, and all logging. They are plumbing without decisions.
- Multipart decoding: the handler receives at most one file part, already decoded. The decoder strips directories from client file names, so an original name holds no '/'; the lemmas that need this state it. Requests with several file parts are not modelled.
- Multer internals are not in this repository's source and are modelled from multer's documented behaviour. An unexpected field is refused before the filter runs. A part without a file name is skipped. An oversized file is refused once its write has started, and its partial copy is removed, so the net effect on the filesystem is none.
- `fetch` and the network: the fetch result is an input, as a status, a status text and a body that may fail to download, or a network error. An `imageUrl` that is a non-string JSON value is not modelled.
- `child_process.spawn` mechanics and stream chunking: the handlers see the accumulated stdout and stderr and the exit status, or a spawn error.
- The 5-second `setTimeout` and concurrency between requests: cleanup is a pending value applied later by `Routes.RunCleanup`, to whatever filesystem exists then. Concurrency safety is reduced to the naming lemmas.
- `sendFile` delivery is an abstract success or failure (`Delivered` or `SendFailed`).
- Routes.ServeUpload: `SendFailed` models a send failure before any header is written, where the 500 `Failed to send processed image` is answered and the cleanup is still scheduled (server.js:120-136). A failure after the headers are out, such as a client that disconnects mid-download, is not modelled: there the callback's `res.status(500).json(...)` throws because the headers were already sent, the `setTimeout` after it is never reached, and neither file is cleaned up. That throw happens in a `sendFile` event callback with no handler around it, so by a reading of the code (not executed) it is an uncaught exception that ends the server process.
- Routes.ServeStaged: the same holds for the URL handler's `sendFile` callback (server.js:196-212). A failure after the headers are out throws from the callback, leaving the staged input and the output on disk with no cleanup scheduled; as an uncaught exception it ends the server process.
- rembg and PIL pixel processing: `rembg.remove` is an opaque function that returns bytes or raises.
- Startup directory creation: `Routes.Provisioned` is a precondition of the end-to-end lemmas. The handlers themselves model a missing directory as a failed write.
- Absolute paths: the server joins `uploads` and `outputs` onto its own directory (server.js:31, 103, 174, 176), while the model uses the relative paths `uploads/<name>` and `outputs/<name>`. The paths in a `File` body, in the `open` message of a failed URL write, and in the script's `Input file '...'` line therefore lack that directory prefix in the model. A failed write is reachable, because a failing startup `mkdir` is only logged (server.js:19-24).
- EndToEnd.PythonEngine: the interpreter is modelled as running `model.py` to completion, so every run ends with exit code 0 or 1 and never by a signal. A native crash inside the library or a kill from outside (for example by the out-of-memory killer) is not modelled; the classifier itself does treat any signal as a failure (`Engine.ExitCodeAndMarkerBothNeeded`).
- `os.makedirs` creating intermediate directories: only the output's own directory is added.
- The exact traceback text of an uncaught Python exception is not modelled. It is a non-empty stderr text containing the message. The Node and Python error messages use the usual errno wording for a missing path (`ENOENT`, errno 2), a directory (`EISDIR`, errno 21) and a parent that is a regular file (`ENOTDIR`, errno 20).
- Only the immediate parent of a path is inspected: a missing or non-directory ancestor further up is not distinguished from a missing parent.
- Text the library prints to stdout is not modelled, only what it writes to stderr. rembg and its dependencies report warnings and download progress on stderr. Library stdout cannot change the verdict, because exit code 0 already implies the script's own `SUCCESS` line (model.py:16, 43-44). It would change the failure details when stderr is empty, since `error || output` (server.js:77) then reports the whole stdout, library text included.
- Python's `repr` is modelled for code points below 256. Above that, `str.isprintable` depends on the Unicode database (line and paragraph separators, unassigned and private-use code points are escaped as `\uXXXX` or `\UXXXXXXXX`); the model writes every such character unescaped.
- Unlink failures other than a missing path or a directory, such as permission errors, are not modelled.

=== FILE: base.dfy ===
/** Value types shared by every part of the model: file contents and the two
    failure-carrying wrappers used wherever the original code can throw. */
module Base {

  /** One octet of file content. */
  type Byte = b: int | 0 <= b < 256

  /** The raw contents of a file or of a fetched body. */
  type Bytes = seq<Byte>

  /** A value that may be absent (`undefined` / `None` in the original code). */
  datatype Option<+T> = None | Some(value: T)

  /** The outcome of an operation that may throw: a value, or the error it raised. */
  datatype Result<+T, +E> = Ok(value: T) | Err(error: E)
}

=== FILE: end_to_end.dfy ===
/** The server composed with the engine script it spawns: the classifier's verdict
    on a script run agrees with what the script did to the filesystem, and whole
    requests are followed from admission to the deferred cleanup. */
module EndToEnd {
  import opened Base
  import opened Text
  import opened FileSystem
  import opened Naming
  import opened Engine
  import opened Http
  import opened Multer
  import opened Routes
  import opened Script

  /** `spawn('python3', [model.py, input, output])`: a spawn error when the interpreter
      cannot be started, and otherwise a run of the script that ends with exit code 0 or 1
      and can change no file but the output. */
  function PythonEngine(spawnError: Option<string>, remove: Remover, faults: Faults): (engine: EngineFn)
    ensures forall fs, input, output :: spawnError.Some? ==>
      engine(fs, input, output) == EngineRun(SpawnFailed(spawnError.value), fs)
    ensures forall fs, input, output :: spawnError.None? ==>
      && engine(fs, input, output).child.Closed?
      && (engine(fs, input, output).child.status == Exited(0) || engine(fs, input, output).child.status == Exited(1))
      && AgreeExcept(engine(fs, input, output).fs.files, fs.files, output)
  {
    (fs: Fs, input: string, output: string) =>
      if spawnError.Some? then EngineRun(SpawnFailed(spawnError.value), fs)
      else
        var p := Main([input, output], fs, remove, faults);
        EngineRun(Closed(Exited(p.code), p.stdout, p.stderr), p.fs)
  }

  /** The classifier calls a script run a success exactly when the script exited 0, and
      then the output holds the library's result on the input. A failure the script
      caught itself, with a quiet library, leaves stderr empty, so the reported message
      is its stdout. */
  lemma ClassifierAgreesWithScript(input: string, output: string, fs: Fs, remove: Remover, faults: Faults)
    ensures var p := Main([input, output], fs, remove, faults);
      var r := Classify(Closed(Exited(p.code), p.stdout, p.stderr));
      && (r.EngineSuccess? <==> p.code == 0)
      && (r.EngineSuccess? ==>
            input in fs.files && remove(fs.files[input]).Ok?
            && output in p.fs.files && p.fs.files[output] == remove(fs.files[input]).value)
      && (r.EngineFailure? && p.stderr == "" ==> r.message == RunFailedPrefix + p.stdout)
  {
  }

  /** The marker in stdout is not enough on its own: an input path containing `SUCCESS`
      that does not exist makes the script print the marker inside its error line and
      exit 1, and the run is classified as a failure. */
  lemma MarkerWithoutZeroExitFails(input: string, output: string, fs: Fs, remove: Remover, faults: Faults)
    requires faults.importFault.None? && !Exists(fs, input) && IsSubstring(SuccessMarker, input)
    ensures var p := Main([input, output], fs, remove, faults);
      && p.code == 1
      && IsSubstring(SuccessMarker, p.stdout)
      && Classify(Closed(Exited(p.code), p.stdout, p.stderr)).EngineFailure?
  {
    var head := ErrorPrefix + "Input file '";
    var tail := "' does not exist\n";
    assert MissingInputLine(input) == head + input + tail;
    SubstringOfMiddle(SuccessMarker, head, input, tail);
  }

  /** With the real script as engine, a run classified as a success always left the
      output file behind, so `Output file was not created` is never reported. */
  lemma OutputNeverMissingAfterScriptSuccess(input: string, output: string, fs: Fs, spawnError: Option<string>,
                                             remove: Remover, faults: Faults, delivery: Delivery)
    ensures RunJob(input, output, fs, PythonEngine(spawnError, remove, faults), delivery).Threw? ==>
      RunJob(input, output, fs, PythonEngine(spawnError, remove, faults), delivery).message != OutputMissing
  {
    var engine := PythonEngine(spawnError, remove, faults);
    var run := engine(fs, input, output);
    if spawnError.None? {
      ClassifierAgreesWithScript(input, output, fs, remove, faults);
    }
    if Classify(run.child).EngineFailure? {
      var m := Classify(run.child).message;
      assert StartsWith(m, RunFailedPrefix) || StartsWith(m, SpawnFailedPrefix);
      assert m[0] == 'P' || m[0] == 'F';
      assert OutputMissing[0] == 'O';
    }
  }

  /** A well-formed upload of an allowed image within the size limit, on a provisioned
      filesystem with a fresh token and a library call that succeeds, is answered with the
      processed bytes, whatever the library writes to stderr; the deferred cleanup then
      restores the filesystem exactly. */
  lemma UploadRoundTrip(part: FilePart, token: Uuid, fs: Fs, remove: Remover, importNoise: string, removeNoise: string)
    requires part.originalname != "" && '/' !in part.originalname && part.fieldname == ImageField
    requires FileFilter(part.mimetype) && |part.content| <= MaxFileSize
    requires Provisioned(fs) && Fresh(fs, Job(token, Uploaded(part.originalname)))
    requires remove(part.content).Ok?
    ensures var job := Job(token, Uploaded(part.originalname));
      var r := ServeUpload(Some(part), token, fs, PythonEngine(None, remove, CleanRun(importNoise, removeNoise)), Delivered);
      && r.response == Response(200, File(OutputPath(job), remove(part.content).value))
      && r.pending == Some(Cleanup(InputPath(job), OutputPath(job)))
      && RunCleanup(r.fs, r.pending.value) == fs
  {
    var job := Job(token, Uploaded(part.originalname));
    var input := InputPath(job);
    var output := OutputPath(job);
    var v := remove(part.content).value;
    var fs1 := fs.(files := fs.files[input := part.content]);
    var fs2 := fs1.(files := fs1.files[output := v]);
    var engine := PythonEngine(None, remove, CleanRun(importNoise, removeNoise));
    assert Admit(Some(part), token, fs) == Admitted(job, fs1) by {
      AdmitWellFormed(part, token, fs);
    }
    assert RunJob(input, output, fs1, engine, Delivered) == Served(Response(200, File(output, v)), fs2) by {
      JobPathsInTheirDirs(job);
      ScriptJobServes(input, output, fs1, remove, importNoise, removeNoise);
    }
    assert ServeUpload(Some(part), token, fs, engine, Delivered)
        == Reply(Response(200, File(output, v)), fs2, Some(Cleanup(input, output)), [EngineCall(input, output)]) by {
      UploadReply(Some(part), token, fs, engine, Delivered, job, fs1);
    }
    assert RunCleanup(fs2, Cleanup(input, output)) == fs by {
      assert input[0] == 'u' && output[0] == 'o';
      CleanupUndoesJob(fs, Cleanup(input, output), part.content, v);
    }
  }

  /** The upload middleware stages a well-formed upload of an allowed image within the
      size limit, on a provisioned filesystem with a fresh token. */
  lemma AdmitWellFormed(part: FilePart, token: Uuid, fs: Fs)
    requires part.originalname != "" && '/' !in part.originalname && part.fieldname == ImageField
    requires FileFilter(part.mimetype) && |part.content| <= MaxFileSize
    requires Provisioned(fs) && Fresh(fs, Job(token, Uploaded(part.originalname)))
    ensures var job := Job(token, Uploaded(part.originalname));
      Admit(Some(part), token, fs) == Admitted(job, fs.(files := fs.files[InputPath(job) := part.content]))
  {
    JobPathsInTheirDirs(Job(token, Uploaded(part.originalname)));
  }

  /** A job whose script run succeeds is served with the bytes the library produced. */
  lemma ScriptJobServes(input: string, output: string, fs: Fs, remove: Remover, importNoise: string, removeNoise: string)
    requires input in fs.files && input != "" && remove(fs.files[input]).Ok?
    requires output != "" && output !in fs.dirs && DirName(output) in fs.dirs && DirName(output) !in fs.files
    ensures var v := remove(fs.files[input]).value;
      RunJob(input, output, fs, PythonEngine(None, remove, CleanRun(importNoise, removeNoise)), Delivered)
        == Served(Response(200, File(output, v)), fs.(files := fs.files[output := v]))
  {
    ScriptSucceeds(input, output, fs, remove, importNoise, removeNoise);
    ClassifierAgreesWithScript(input, output, fs, remove, CleanRun(importNoise, removeNoise));
  }

  /** On a filesystem where the input is a file, the output's directory exists and the
      output is no directory, a run in which only the library could raise, and it does not,
      exits 0 and adds exactly the output file. */
  lemma ScriptSucceeds(input: string, output: string, fs: Fs, remove: Remover, importNoise: string, removeNoise: string)
    requires input in fs.files && input != "" && remove(fs.files[input]).Ok?
    requires output != "" && output !in fs.dirs && DirName(output) in fs.dirs && DirName(output) !in fs.files
    ensures var p := Main([input, output], fs, remove, CleanRun(importNoise, removeNoise));
      && p.code == 0
      && p.fs == fs.(files := fs.files[output := remove(fs.files[input]).value])
  {
  }

  /** A job whose library call raises is reported with what the library wrote to stderr
      or, when it wrote nothing, with the script's error line; the script leaves the
      filesystem as it found it. */
  lemma ScriptJobThrows(input: string, output: string, fs: Fs, remove: Remover, importNoise: string, removeNoise: string)
    requires input in fs.files && input != "" && remove(fs.files[input]).Err?
    requires DirName(output) in fs.dirs
    ensures RunJob(input, output, fs, PythonEngine(None, remove, CleanRun(importNoise, removeNoise)), Delivered)
      == Threw(RunFailedPrefix + Or(importNoise + removeNoise, ErrorLine(remove(fs.files[input]).error)), fs)
  {
    var p := Main([input, output], fs, remove, CleanRun(importNoise, removeNoise));
    assert p == ProcessExit(ErrorLine(remove(fs.files[input]).error), importNoise + removeNoise, 1, fs);
  }

  /** When the library call raises, the upload handler answers 500 with the library's
      stderr text or, if there is none, the script's error line in the details, and removes
      its staged input, restoring the filesystem. */
  lemma UploadFailureRemovesInput(part: FilePart, token: Uuid, fs: Fs, remove: Remover,
                                  importNoise: string, removeNoise: string)
    requires part.originalname != "" && '/' !in part.originalname && part.fieldname == ImageField
    requires FileFilter(part.mimetype) && |part.content| <= MaxFileSize
    requires Provisioned(fs) && Fresh(fs, Job(token, Uploaded(part.originalname)))
    requires remove(part.content).Err?
    ensures var r := ServeUpload(Some(part), token, fs, PythonEngine(None, remove, CleanRun(importNoise, removeNoise)), Delivered);
      && r.response == JsonErrorWithDetails(500, ProcessFailed,
                         RunFailedPrefix + Or(importNoise + removeNoise, ErrorLine(remove(part.content).error)))
      && r.pending == None
      && r.fs == fs
  {
    var job := Job(token, Uploaded(part.originalname));
    var input := InputPath(job);
    var fs1 := fs.(files := fs.files[input := part.content]);
    AdmitWellFormed(part, token, fs);
    JobPathsInTheirDirs(job);
    ScriptJobThrows(input, OutputPath(job), fs1, remove, importNoise, removeNoise);
    assert fs1.files - {input} == fs.files;
  }

  /** When the library call raises, the URL handler answers 500 with the library's stderr
      text or the script's error line in the details, but leaves its staged input in
      `uploads/`, with no cleanup pending. */
  lemma UrlFailureLeavesInput(url: string, status: int, statusText: string, bytes: Bytes, token: Uuid, fs: Fs,
                              remove: Remover, importNoise: string, removeNoise: string)
    requires url != "" && FetchOk(status)
    requires Provisioned(fs) && Fresh(fs, Job(token, FromUrl))
    requires remove(bytes).Err?
    ensures var r := ServeUrl(Some(url), Responded(status, statusText, Ok(bytes)), token, fs,
                              PythonEngine(None, remove, CleanRun(importNoise, removeNoise)), Delivered);
      && r.response == JsonErrorWithDetails(500, UrlProcessFailed,
                         RunFailedPrefix + Or(importNoise + removeNoise, ErrorLine(remove(bytes).error)))
      && r.pending == None
      && r.fs == fs.(files := fs.files[InputPath(Job(token, FromUrl)) := bytes])
  {
    var job := Job(token, FromUrl);
    var input := InputPath(job);
    JobPathsInTheirDirs(job);
    assert WriteFile(fs, input, bytes) == Ok(fs.(files := fs.files[input := bytes]));
    ScriptJobThrows(input, OutputPath(job), fs.(files := fs.files[input := bytes]), remove, importNoise, removeNoise);
  }

  /** A URL whose fetch succeeds with any ok status, on a provisioned filesystem with a fresh
      token and a library call that succeeds, is answered with the processed bytes; the
      deferred cleanup then restores the filesystem exactly. */
  lemma UrlRoundTrip(url: string, status: int, statusText: string, bytes: Bytes, token: Uuid, fs: Fs,
                     remove: Remover, importNoise: string, removeNoise: string)
    requires url != "" && FetchOk(status)
    requires Provisioned(fs) && Fresh(fs, Job(token, FromUrl))
    requires remove(bytes).Ok?
    ensures var job := Job(token, FromUrl);
      var r := ServeUrl(Some(url), Responded(status, statusText, Ok(bytes)), token, fs,
                        PythonEngine(None, remove, CleanRun(importNoise, removeNoise)), Delivered);
      && r.response == Response(200, File(OutputPath(job), remove(bytes).value))
      && r.pending == Some(Cleanup(InputPath(job), OutputPath(job)))
      && RunCleanup(r.fs, r.pending.value) == fs
  {
    var job := Job(token, FromUrl);
    var input := InputPath(job);
    var output := OutputPath(job);
    var v := remove(bytes).value;
    var fs1 := fs.(files := fs.files[input := bytes]);
    var fs2 := fs1.(files := fs1.files[output := v]);
    var engine := PythonEngine(None, remove, CleanRun(importNoise, removeNoise));
    assert WriteFile(fs, input, bytes) == Ok(fs1) by {
      JobPathsInTheirDirs(job);
    }
    assert RunJob(input, output, fs1, engine, Delivered) == Served(Response(200, File(output, v)), fs2) by {
      JobPathsInTheirDirs(job);
      ScriptJobServes(input, output, fs1, remove, importNoise, removeNoise);
    }
    assert ServeStaged(url, token, fs1, engine, Delivered)
        == Reply(Response(200, File(output, v)), fs2, Some(Cleanup(input, output)), [FetchCall(url), EngineCall(input, output)]) by {
      UrlReply(url, token, fs1, engine, Delivered);
    }
    assert RunCleanup(fs2, Cleanup(input, output)) == fs by {
      assert input[0] == 'u' && output[0] == 'o';
      CleanupUndoesJob(fs, Cleanup(input, output), bytes, v);
    }
  }
}

=== FILE: engine.dfy ===
/** The engine invoker (`runPythonModel`): one child process per call, whose
    exit status and accumulated output streams are classified as a success or a
    failure carrying the message the request handlers report. */
module Engine {
  import opened Text

  /** How the child ended: with an exit code, or killed by a signal (Node reports code `null`). */
  datatype ExitStatus = Exited(code: int) | Signaled(signal: string)

  /** What the invoker observes of one child: its `close` event with everything it
      wrote to stdout and stderr, or an `error` event because it could not be started. */
  datatype ChildRun = Closed(status: ExitStatus, stdout: string, stderr: string) | SpawnFailed(message: string)

  /** The settled promise: resolved with the child's stdout, or rejected with an error message. */
  datatype EngineResult = EngineSuccess(output: string) | EngineFailure(message: string)

  const SuccessMarker := "SUCCESS"
  const RunFailedPrefix := "Python model failed: "
  const SpawnFailedPrefix := "Failed to start Python process: "

  /** JavaScript's `error || output` on two strings: the first unless it is empty. */
  function Or(a: string, b: string): string
  {
    if a != "" then a else b
  }

  /** Settles the promise of `runPythonModel` for one child run. */
  function Classify(run: ChildRun): (r: EngineResult)
    ensures r.EngineSuccess? <==>
      run.Closed? && run.status == Exited(0) && IsSubstring(SuccessMarker, run.stdout)
    ensures r.EngineSuccess? ==> r.output == run.stdout
    ensures run.SpawnFailed? ==> r.message == SpawnFailedPrefix + run.message
    ensures run.Closed? && r.EngineFailure? && run.stderr != "" ==>
      r.message == RunFailedPrefix + run.stderr
    ensures run.Closed? && r.EngineFailure? && run.stderr == "" ==>
      r.message == RunFailedPrefix + run.stdout
  {
    match run
    case SpawnFailed(m) => EngineFailure(SpawnFailedPrefix + m)
    case Closed(status, out, err) =>
      if status == Exited(0) && Includes(out, SuccessMarker) then EngineSuccess(out)
      else EngineFailure(RunFailedPrefix + Or(err, out))
  }

  /** A zero exit code is not enough: without the marker anywhere in stdout the run fails.
      The marker is not enough either: any non-zero exit code or a signal makes the run fail,
      whatever was printed. Exit 0 with the marker anywhere in stdout succeeds. */
  lemma ExitCodeAndMarkerBothNeeded(out: string, err: string, code: int, signal: string, a: string, b: string)
    ensures !IsSubstring(SuccessMarker, out) ==> Classify(Closed(Exited(0), out, err)).EngineFailure?
    ensures code != 0 ==> Classify(Closed(Exited(code), out, err)).EngineFailure?
    ensures Classify(Closed(Signaled(signal), out, err)).EngineFailure?
    ensures Classify(Closed(Exited(0), a + SuccessMarker + b, err)) == EngineSuccess(a + SuccessMarker + b)
  {
    SelfIsSubstring(SuccessMarker);
    SubstringOfMiddle(SuccessMarker, a, SuccessMarker, b);
  }
}

=== FILE: filesystem.dfy ===
/** An abstract, process-relative filesystem and the few operations the server
    and the engine script perform on it. Paths are plain strings joined with '/'. */
module FileSystem {
  import opened Base
  import opened PythonRepr

  /** Regular files with their contents, and the set of existing directories. */
  datatype Fs = Fs(files: map<string, Bytes>, dirs: set<string>)

  /** `fs.access(p)` in Node and `os.path.exists(p)` in Python: the empty path names nothing. */
  predicate Exists(fs: Fs, p: string)
  {
    p != "" && (p in fs.files || p in fs.dirs)
  }

  /** `a` and `b` hold the same files with the same contents, except perhaps at `p`. */
  ghost predicate AgreeExcept(a: map<string, Bytes>, b: map<string, Bytes>, p: string)
  {
    forall q :: q != p ==> (q in a <==> q in b) && (q in a ==> a[q] == b[q])
  }

  /** Why a system call on a path failed: the path or its parent is missing, the path is
      a directory, or its parent is a regular file. */
  datatype IoError = NotFound(path: string) | IsADirectory(path: string) | NotADirectory(path: string)

  /** Index just past the last '/' of `p`, or 0 when `p` has none. */
  function SlashEnd(p: string): (k: nat)
    ensures k <= |p|
    ensures k > 0 ==> p[k - 1] == '/'
    ensures forall i :: k <= i < |p| ==> p[i] != '/'
  {
    if p == [] then 0
    else if p[|p| - 1] == '/' then |p|
    else SlashEnd(p[..|p| - 1])
  }

  /** `s` with every trailing '/' removed. */
  function StripTrailingSlashes(s: string): (r: string)
    ensures |r| <= |s| && r == s[..|r|]
    ensures r == [] || r[|r| - 1] != '/'
    ensures forall i :: |r| <= i < |s| ==> s[i] == '/'
  {
    if s != [] && s[|s| - 1] == '/' then StripTrailingSlashes(s[..|s| - 1]) else s
  }

  predicate AllSlashes(s: string)
  {
    forall i :: 0 <= i < |s| ==> s[i] == '/'
  }

  /** Python's `os.path.dirname` on POSIX: the head up to the last '/', with its
      trailing slashes removed unless it consists of slashes only. */
  function DirName(p: string): (d: string)
    ensures |d| <= |p| && d == p[..|d|]
    ensures '/' !in p ==> d == ""
    ensures d != "" && !AllSlashes(d) ==> d[|d| - 1] != '/'
  {
    var head := p[..SlashEnd(p)];
    if head != [] && !AllSlashes(head) then StripTrailingSlashes(head) else head
  }

  /** The directory of `dir + "/" + name` is `dir`, when `name` holds no '/'
      and `dir` is named and does not end in one. */
  lemma DirNameOfChild(dir: string, name: string)
    requires dir != [] && dir[|dir| - 1] != '/'
    ensures '/' !in name ==> DirName(dir + "/" + name) == dir
  {
    if '/' !in name {
      var p := dir + "/" + name;
      var k := SlashEnd(p);
      assert p[|dir|] == '/';
      forall i | |dir| < i < |p|
        ensures p[i] != '/'
      {
        assert p[i] == name[i - |dir| - 1];
      }
      assert k == |dir| + 1;
      var head := p[..k];
      assert head == dir + "/";
      assert head[|dir| - 1] != '/';
      var r := StripTrailingSlashes(head);
      assert |r| == |dir|;
      assert r == dir;
    }
  }

  /** The parent directory of `p` exists (the empty head stands for the working directory). */
  predicate ParentExists(fs: Fs, p: string)
  {
    var d := DirName(p);
    d == "" || d in fs.dirs
  }

  /** The parent of `p` is an existing regular file, so `p` cannot be reached. */
  predicate ParentIsFile(fs: Fs, p: string)
  {
    var d := DirName(p);
    d != "" && d in fs.files
  }

  /** Create or truncate the regular file `p` and fill it with `data`. */
  function WriteFile(fs: Fs, p: string, data: Bytes): (r: Result<Fs, IoError>)
    ensures r.Ok? <==> p != "" && !ParentIsFile(fs, p) && p !in fs.dirs && ParentExists(fs, p)
    ensures r.Ok? ==> r.value.files == fs.files[p := data] && r.value.dirs == fs.dirs
    ensures r.Err? && p != "" && ParentIsFile(fs, p) ==> r.error == NotADirectory(p)
    ensures r.Err? && p != "" && !ParentIsFile(fs, p) && p in fs.dirs ==> r.error == IsADirectory(p)
    ensures r.Err? && (p == "" || !ParentExists(fs, p)) && !ParentIsFile(fs, p) && p !in fs.dirs ==>
      r.error == NotFound(p)
  {
    if p == "" then Err(NotFound(p))
    else if ParentIsFile(fs, p) then Err(NotADirectory(p))
    else if p in fs.dirs then Err(IsADirectory(p))
    else if !ParentExists(fs, p) then Err(NotFound(p))
    else Ok(fs.(files := fs.files[p := data]))
  }

  /** Read the whole regular file `p`. */
  function ReadFile(fs: Fs, p: string): (r: Result<Bytes, IoError>)
    ensures r.Ok? <==> p in fs.files
    ensures r.Ok? ==> r.value == fs.files[p]
    ensures r.Err? ==> (r.error == IsADirectory(p) <==> !ParentIsFile(fs, p) && p in fs.dirs)
  {
    if p in fs.files then Ok(fs.files[p])
    else if ParentIsFile(fs, p) then Err(NotADirectory(p))
    else if p in fs.dirs then Err(IsADirectory(p))
    else Err(NotFound(p))
  }

  /** Delete the regular file `p`; every other file and every directory stays. */
  function Unlink(fs: Fs, p: string): (r: Result<Fs, IoError>)
    ensures r.Ok? <==> p in fs.files
    ensures r.Ok? ==> p !in r.value.files && AgreeExcept(r.value.files, fs.files, p) && r.value.dirs == fs.dirs
    ensures r.Err? ==> (r.error == IsADirectory(p) <==> !ParentIsFile(fs, p) && p in fs.dirs)
  {
    if p in fs.files then Ok(fs.(files := fs.files - {p}))
    else if ParentIsFile(fs, p) then Err(NotADirectory(p))
    else if p in fs.dirs then Err(IsADirectory(p))
    else Err(NotFound(p))
  }

  /** A path between single quotes, as Node's error messages and a Python f-string write it. */
  function Quoted(p: string): string
  {
    "'" + p + "'"
  }

  /** The `message` of the error Node's `fs` functions throw for `syscall` on a path. */
  function NodeMessage(syscall: string, e: IoError): string
  {
    match e
    case NotFound(p) => "ENOENT: no such file or directory, " + syscall + " " + Quoted(p)
    case IsADirectory(p) => "EISDIR: illegal operation on a directory, " + syscall + " " + Quoted(p)
    case NotADirectory(p) => "ENOTDIR: not a directory, " + syscall + " " + Quoted(p)
  }

  /** `str(e)` of the `OSError` Python raises for an `open` on a path: the path is
      quoted by `repr`. */
  function PythonMessage(e: IoError): string
  {
    match e
    case NotFound(p) => "[Errno 2] No such file or directory: " + Repr(p)
    case IsADirectory(p) => "[Errno 21] Is a directory: " + Repr(p)
    case NotADirectory(p) => "[Errno 20] Not a directory: " + Repr(p)
  }
}

=== FILE: http.dfy ===
/** The responses the handlers send, reduced to status and body. */
module Http {
  import opened Base

  /** A JSON `{error, details?}` body, or the bytes of a file sent with `res.sendFile`. */
  datatype Body = Json(error: string, details: Option<string>) | File(path: string, data: Bytes)

  datatype Response = Response(status: int, body: Body)

  function JsonError(status: int, error: string): Response
  {
    Response(status, Json(error, None))
  }

  function JsonErrorWithDetails(status: int, error: string, details: string): Response
  {
    Response(status, Json(error, Some(details)))
  }
}

=== FILE: multer.dfy ===
/** Upload admission: what `upload.single('image')` does with the multipart body
    before the handler runs — the disk-storage file name, the mimetype filter and
    the size limit — and which error it hands to the error middleware. */
module Multer {
  import opened Base
  import opened Text
  import opened FileSystem
  import opened Naming

  /** `limits.fileSize`: 10 MiB. A file of exactly this size is accepted. */
  const MaxFileSize: nat := 10 * 1024 * 1024
  const ImageField := "image"
  const AllowedTypes: seq<string> := ["image/jpeg", "image/jpg", "image/png", "image/webp"]
  const FilterMessage := "Only image files (JPEG, PNG, WebP) are allowed"
  const LimitFileSize := "LIMIT_FILE_SIZE"
  const LimitUnexpectedFile := "LIMIT_UNEXPECTED_FILE"

  /** One file part of a multipart body, as the multipart decoder hands it over. */
  datatype FilePart = FilePart(fieldname: string, originalname: string, mimetype: string, content: Bytes)

  /** What reaches the error middleware: a `MulterError` with its code, or a plain `Error`. */
  datatype RouteError = MulterError(code: string) | PlainError(message: string)

  /** The three ways the upload middleware ends: `next()` without `req.file`,
      `next(err)`, or `next()` with the file written to `uploads/`. */
  datatype Admission = NoFile | Rejected(error: RouteError) | Admitted(job: Job, fs: Fs)

  /** The `fileFilter` callback: accept exactly the four allowed mimetypes. */
  function FileFilter(mimetype: string): (accept: bool)
    ensures accept <==> mimetype == "image/jpeg" || mimetype == "image/jpg"
                        || mimetype == "image/png" || mimetype == "image/webp"
    ensures accept ==> StartsWith(mimetype, "image/")
  {
    mimetype in AllowedTypes
  }

  /** Runs the upload middleware on the (at most one) file part of a request.
      A part without a file name is skipped; a part in another field is refused before
      the filter runs; the filter runs before any byte is written; a file larger than
      the limit is refused and its partial copy removed again. */
  function Admit(file: Option<FilePart>, token: Uuid, fs: Fs): (a: Admission)
    ensures a.NoFile? <==> file.None? || file.value.originalname == ""
    ensures a.Admitted? ==>
      && a.job == Job(token, Uploaded(file.value.originalname))
      && file.value.fieldname == ImageField
      && FileFilter(file.value.mimetype)
      && |file.value.content| <= MaxFileSize
      && a.fs.files == fs.files[InputPath(a.job) := file.value.content]
      && a.fs.dirs == fs.dirs
    ensures a == Rejected(MulterError(LimitFileSize)) ==>
      && file.Some? && file.value.fieldname == ImageField
      && FileFilter(file.value.mimetype) && |file.value.content| > MaxFileSize
    ensures (file.Some? && file.value.originalname != "" && file.value.fieldname != ImageField) ==>
      a == Rejected(MulterError(LimitUnexpectedFile))
    ensures (file.Some? && file.value.originalname != "" && file.value.fieldname == ImageField
             && !FileFilter(file.value.mimetype)) ==> a == Rejected(PlainError(FilterMessage))
    ensures file.Some? && file.value.originalname != "" && file.value.fieldname == ImageField
            && FileFilter(file.value.mimetype) ==>
      var w := WriteFile(fs, InputPath(Job(token, Uploaded(file.value.originalname))), file.value.content);
      && (w.Err? ==> a == Rejected(PlainError(NodeMessage("open", w.error))))
      && (w.Ok? && |file.value.content| > MaxFileSize ==> a == Rejected(MulterError(LimitFileSize)))
      && (w.Ok? && |file.value.content| <= MaxFileSize ==> a.Admitted?)
  {
    if file.None? || file.value.originalname == "" then NoFile
    else
      var part := file.value;
      if part.fieldname != ImageField then Rejected(MulterError(LimitUnexpectedFile))
      else if !FileFilter(part.mimetype) then Rejected(PlainError(FilterMessage))
      else
        var job := Job(token, Uploaded(part.originalname));
        match WriteFile(fs, InputPath(job), part.content)
        case Err(e) => Rejected(PlainError(NodeMessage("open", e)))
        case Ok(fs') =>
          if |part.content| > MaxFileSize then Rejected(MulterError(LimitFileSize))
          else Admitted(job, fs')
  }
}

=== FILE: naming.dfy ===
/** How the server names the files of one request: the staged input in `uploads/`
    and the engine's result in `outputs/`, both keyed by a fresh version-4 uuid. */
module Naming {
  import opened Base
  import opened Text
  import opened FileSystem

  const UuidLength: nat := 36

  predicate IsLowerHex(c: char)
  {
    '0' <= c <= '9' || 'a' <= c <= 'f'
  }

  /** The character allowed at position `i` of the canonical text of a version-4 uuid:
      dashes at 8, 13, 18 and 23, the version digit `4` at 14, the variant digit at 19,
      lower-case hex digits elsewhere. */
  predicate UuidCharAt(i: int, c: char)
  {
    if i == 8 || i == 13 || i == 18 || i == 23 then c == '-'
    else if i == 14 then c == '4'
    else if i == 19 then c == '8' || c == '9' || c == 'a' || c == 'b'
    else IsLowerHex(c)
  }

  predicate IsUuidV4(s: string)
  {
    |s| == UuidLength && forall i :: 0 <= i < |s| ==> UuidCharAt(i, s[i])
  }

  /** The tokens `uuidv4()` returns. */
  type Uuid = s: string | IsUuidV4(s)
    witness seq(36, i => if i == 8 || i == 13 || i == 18 || i == 23 then '-'
                         else if i == 14 then '4' else if i == 19 then '8' else '0')

  const UploadsDir := "uploads"
  const OutputsDir := "outputs"
  const UrlPrefix := "url-image-"
  const UrlSuffix := ".jpg"
  const OutputPrefix := "processed-"

  /** `path.join(dir, name)` for a name without separators. */
  function InDir(dir: string, name: string): string
  {
    dir + "/" + name
  }

  /** Where the staged input came from: a multipart upload with its client file name, or a URL. */
  datatype Origin = Uploaded(originalname: string) | FromUrl

  /** The naming-relevant part of one request: its token and its origin. */
  datatype Job = Job(token: Uuid, origin: Origin)

  /** Multer's `filename` callback (`<uuid>-<originalname>`) for uploads,
      `url-image-<uuid>.jpg` for URL requests. */
  function StagedName(j: Job): string
  {
    match j.origin
    case Uploaded(o) => j.token + "-" + o
    case FromUrl => UrlPrefix + j.token + UrlSuffix
  }

  /** `uploads/<staged name>`. */
  function InputPath(j: Job): string
  {
    InDir(UploadsDir, StagedName(j))
  }

  /** `outputs/processed-<staged name>`. */
  function OutputPath(j: Job): string
  {
    InDir(OutputsDir, OutputPrefix + StagedName(j))
  }

  /** Recovers the job from a staged file name; the inverse of `StagedName`. */
  function ParseStagedName(name: string): Option<Job>
  {
    var n := |UrlPrefix|;
    if |name| == n + UuidLength + |UrlSuffix| && StartsWith(name, UrlPrefix)
       && name[n + UuidLength..] == UrlSuffix && IsUuidV4(name[n..n + UuidLength])
    then Some(Job(name[n..n + UuidLength], FromUrl))
    else if |name| > UuidLength && IsUuidV4(name[..UuidLength]) && name[UuidLength] == '-'
    then Some(Job(name[..UuidLength], Uploaded(name[UuidLength + 1..])))
    else None
  }

  function ParseInputPath(p: string): Option<Job>
  {
    var prefix := UploadsDir + "/";
    if StartsWith(p, prefix) then ParseStagedName(p[|prefix|..]) else None
  }

  function ParseOutputPath(p: string): Option<Job>
  {
    var prefix := OutputsDir + "/" + OutputPrefix;
    if StartsWith(p, prefix) then ParseStagedName(p[|prefix|..]) else None
  }

  /** Staged names decode back to the job that produced them. */
  lemma StagedNameRoundTrip(j: Job)
    ensures ParseStagedName(StagedName(j)) == Some(j)
  {
    var name := StagedName(j);
    var u := j.token;
    match j.origin
    case FromUrl =>
      assert name[|UrlPrefix|..|UrlPrefix| + UuidLength] == u;
      assert name[|UrlPrefix| + UuidLength..] == UrlSuffix;
      assert StartsWith(name, UrlPrefix);
    case Uploaded(o) =>
      assert UuidCharAt(0, u[0]);
      assert name[0] == u[0] != 'u';
      assert !StartsWith(name, UrlPrefix);
      assert name[..UuidLength] == u;
      assert name[UuidLength] == '-';
      assert name[UuidLength + 1..] == o;
  }

  /** Input and output paths decode back to their job, and neither decodes as the other kind. */
  lemma PathsRoundTrip(j: Job)
    ensures ParseInputPath(InputPath(j)) == Some(j)
    ensures ParseOutputPath(OutputPath(j)) == Some(j)
    ensures ParseInputPath(OutputPath(j)) == None
    ensures ParseOutputPath(InputPath(j)) == None
  {
    StagedNameRoundTrip(j);
    var inp := InputPath(j);
    var out := OutputPath(j);
    assert inp[|UploadsDir + "/"|..] == StagedName(j);
    assert out[|OutputsDir + "/" + OutputPrefix|..] == StagedName(j);
    assert inp[0] == 'u' && out[0] == 'o';
  }

  /** Two different jobs never share a file: their inputs differ, their outputs differ,
      and no job's input is any job's output. */
  lemma JobsDoNotShareFiles(j1: Job, j2: Job)
    requires j1 != j2
    ensures InputPath(j1) != InputPath(j2)
    ensures OutputPath(j1) != OutputPath(j2)
    ensures InputPath(j1) != OutputPath(j2) && OutputPath(j1) != InputPath(j2)
  {
    PathsRoundTrip(j1);
    PathsRoundTrip(j2);
  }

  /** Requests handled concurrently hold pairwise distinct tokens, so none of them
      touches the files of another, whatever their original file names. */
  lemma ConcurrentJobsDisjoint(jobs: seq<Job>)
    requires forall a, b :: 0 <= a < b < |jobs| ==> jobs[a].token != jobs[b].token
    ensures forall a, b :: 0 <= a < |jobs| && 0 <= b < |jobs| && a != b ==>
      {InputPath(jobs[a]), OutputPath(jobs[a])} !! {InputPath(jobs[b]), OutputPath(jobs[b])}
  {
    forall a, b | 0 <= a < |jobs| && 0 <= b < |jobs| && a != b
      ensures {InputPath(jobs[a]), OutputPath(jobs[a])} !! {InputPath(jobs[b]), OutputPath(jobs[b])}
    {
      if a < b {
        assert jobs[a].token != jobs[b].token;
      } else {
        assert jobs[b].token != jobs[a].token;
      }
      JobsDoNotShareFiles(jobs[a], jobs[b]);
    }
  }

  /** The multipart decoder hands over base names only, so an uploaded name holds no '/'. */
  predicate WellFormedJob(j: Job)
  {
    j.origin.Uploaded? ==> '/' !in j.origin.originalname
  }

  lemma UuidHasNoSlash(u: Uuid)
    ensures '/' !in u
  {
    forall i | 0 <= i < |u|
      ensures u[i] != '/'
    {
      assert UuidCharAt(i, u[i]);
    }
  }

  /** A staged name starts with `url-image-` exactly for URL requests, and the name of a
      well-formed job is a single path component. */
  lemma StagedNameShape(j: Job)
    ensures StartsWith(StagedName(j), UrlPrefix) <==> j.origin.FromUrl?
    ensures WellFormedJob(j) ==> '/' !in StagedName(j)
  {
    UuidHasNoSlash(j.token);
    var name := StagedName(j);
    match j.origin
    case Uploaded(o) =>
      assert UuidCharAt(0, j.token[0]);
      assert name[0] == j.token[0];
      NoSlashInConcat(j.token, "-");
      NoSlashInConcat(j.token + "-", o);
    case FromUrl =>
      NoSlashInConcat(UrlPrefix, j.token);
      NoSlashInConcat(UrlPrefix + j.token, UrlSuffix);
      assert name[..|UrlPrefix|] == UrlPrefix;
  }

  /** Staged inputs live directly in `uploads/` and results directly in `outputs/`. */
  lemma JobPathsInTheirDirs(j: Job)
    requires WellFormedJob(j)
    ensures DirName(InputPath(j)) == UploadsDir
    ensures DirName(OutputPath(j)) == OutputsDir
  {
    StagedNameShape(j);
    DirNameOfChild(UploadsDir, StagedName(j));
    NoSlashInConcat(OutputPrefix, StagedName(j));
    DirNameOfChild(OutputsDir, OutputPrefix + StagedName(j));
  }

  lemma NoSlashInConcat(a: string, b: string)
    ensures '/' !in a && '/' !in b ==> '/' !in a + b
  {
    if '/' !in a && '/' !in b {
      forall i | 0 <= i < |a + b|
        ensures (a + b)[i] != '/'
      {
        if i >= |a| {
          assert (a + b)[i] == b[i - |a|];
        }
      }
    }
  }
}

=== FILE: pyrepr.dfy ===
/** Python's `repr` of a `str`, which `str(OSError)` uses to quote the file name it
    reports: single quotes unless the text holds a single quote and no double quote,
    with backslash escapes for the quote, the backslash and unprintable characters. */
module PythonRepr {
  import opened Base

  /** The digits of a `\xNN` escape; Python writes them in lower case. */
  const HexDigits := "0123456789abcdef"

  /** `str.isprintable` on the code points below 256: the C0 controls, DEL, the C1
      controls, the no-break space and the soft hyphen are not printable. */
  predicate Printable(c: char)
  {
    !((c as int) < 0x20 || (0x7f <= (c as int) <= 0xa0) || (c as int) == 0xad)
  }

  /** The quote `repr` chooses for `s`. */
  function QuoteFor(s: string): (q: char)
    ensures q == '"' <==> '\'' in s && '"' !in s
    ensures q == '\'' || q == '"'
  {
    if '\'' in s && '"' !in s then '"' else '\''
  }

  /** How `repr` writes one character inside a literal delimited by `quote`. */
  function EscapeChar(c: char, quote: char): string
  {
    if c == '\\' || c == quote then ['\\', c]
    else if c == '\t' then "\\t"
    else if c == '\n' then "\\n"
    else if c == '\r' then "\\r"
    else if !Printable(c) then "\\x" + [HexDigits[(c as int) / 16], HexDigits[(c as int) % 16]]
    else [c]
  }

  /** The characters of `s` as `repr` writes them between the quotes. */
  function Escape(s: string, quote: char): string
    decreases |s|
  {
    if s == [] then [] else EscapeChar(s[0], quote) + Escape(s[1..], quote)
  }

  /** `repr(s)` for a Python `str`. */
  function Repr(s: string): (r: string)
    ensures |r| >= 2 + |s|
    ensures r[0] == QuoteFor(s) && r[|r| - 1] == r[0]
  {
    EscapeLength(s, QuoteFor(s));
    [QuoteFor(s)] + Escape(s, QuoteFor(s)) + [QuoteFor(s)]
  }

  lemma {:induction false} EscapeLength(s: string, quote: char)
    ensures |Escape(s, quote)| >= |s|
    decreases |s|
  {
    if s != [] {
      EscapeLength(s[1..], quote);
    }
  }

  /** The value of one hexadecimal digit, either case, as Python's parser reads it. */
  function HexValue(c: char): Option<nat>
  {
    if '0' <= c <= '9' then Some(c as int - '0' as int)
    else if 'a' <= c <= 'f' then Some(c as int - 'a' as int + 10)
    else if 'A' <= c <= 'F' then Some(c as int - 'A' as int + 10)
    else None
  }

  /** Reads back the inside of a string literal delimited by `quote`, as Python's
      parser does for the escapes `repr` writes; `None` on a bare closing quote or an
      escape it does not know. */
  function Unescape(t: string, quote: char): Option<string>
    decreases |t|
  {
    if t == [] then Some([])
    else if t[0] == quote then None
    else if t[0] != '\\' then Prepend([t[0]], Unescape(t[1..], quote))
    else if |t| < 2 then None
    else if t[1] == '\\' || t[1] == '\'' || t[1] == '"' then Prepend([t[1]], Unescape(t[2..], quote))
    else if t[1] == 't' then Prepend("\t", Unescape(t[2..], quote))
    else if t[1] == 'n' then Prepend("\n", Unescape(t[2..], quote))
    else if t[1] == 'r' then Prepend("\r", Unescape(t[2..], quote))
    else if t[1] == 'x' && |t| >= 4 && HexValue(t[2]).Some? && HexValue(t[3]).Some? then
      Prepend([(HexValue(t[2]).value * 16 + HexValue(t[3]).value) as char], Unescape(t[4..], quote))
    else None
  }

  function Prepend(p: string, o: Option<string>): Option<string>
  {
    if o.Some? then Some(p + o.value) else None
  }

  /** Reads back a single- or double-quoted literal: the inverse of `Repr`. */
  function Unrepr(r: string): Option<string>
  {
    if |r| < 2 || r[0] != r[|r| - 1] || (r[0] != '\'' && r[0] != '"') then None
    else Unescape(r[1..|r| - 1], r[0])
  }

  lemma HexDigitsRead(k: int)
    requires 0 <= k < 16
    ensures HexValue(HexDigits[k]) == Some(k)
  {
  }

  /** Reading back one escaped character and then the rest. */
  lemma UnescapeChar(c: char, quote: char, rest: string)
    requires quote == '\'' || quote == '"'
    ensures Unescape(EscapeChar(c, quote) + rest, quote) == Prepend([c], Unescape(rest, quote))
  {
    var t := EscapeChar(c, quote) + rest;
    if c == '\\' || c == quote || c == '\t' || c == '\n' || c == '\r' {
      assert t[2..] == rest;
    } else if !Printable(c) {
      var n := c as int;
      HexDigitsRead(n / 16);
      HexDigitsRead(n % 16);
      assert t[1] == 'x' && t[2] == HexDigits[n / 16] && t[3] == HexDigits[n % 16];
      assert t[4..] == rest;
      assert (n / 16 * 16 + n % 16) as char == c;
    } else {
      assert t[0] == c && t[1..] == rest;
    }
  }

  /** Every escaped text reads back to the text it came from. */
  lemma {:induction false} EscapeRoundTrip(s: string, quote: char)
    requires quote == '\'' || quote == '"'
    ensures Unescape(Escape(s, quote), quote) == Some(s)
    decreases |s|
  {
    if s != [] {
      EscapeRoundTrip(s[1..], quote);
      UnescapeChar(s[0], quote, Escape(s[1..], quote));
      assert [s[0]] + s[1..] == s;
    }
  }

  /** `repr` loses nothing: the literal it writes reads back to the original text,
      so two different file names are never reported the same way. */
  lemma ReprRoundTrip(s: string)
    ensures Unrepr(Repr(s)) == Some(s)
  {
    var q := QuoteFor(s);
    var r := Repr(s);
    assert r[1..|r| - 1] == Escape(s, q);
    EscapeRoundTrip(s, q);
  }

  /** A text of printable characters without a quote or backslash is written between
      single quotes unchanged, as a plain `'…'` quoting would write it. */
  lemma {:induction false} PlainTextEscapesToItself(s: string, quote: char)
    requires forall i :: 0 <= i < |s| ==> Printable(s[i]) && s[i] != quote && s[i] != '\\'
    ensures Escape(s, quote) == s
    decreases |s|
  {
    if s != [] {
      PlainTextEscapesToItself(s[1..], quote);
      assert [s[0]] + s[1..] == s;
    }
  }

  /** The usual file name, printable and free of quotes and backslashes, is reported
      as `'<name>'`; a name holding `'` but no `"` is reported between double quotes. */
  lemma ReprOfPlainText(s: string)
    requires forall i :: 0 <= i < |s| ==> Printable(s[i]) && s[i] != '\'' && s[i] != '\\'
    ensures Repr(s) == "'" + s + "'"
  {
    assert '\'' !in s;
    PlainTextEscapesToItself(s, '\'');
  }
}

=== FILE: routes.dfy ===
/** The two request handlers of the server, the error middleware, and the deferred
    cleanup they schedule, written as pure step functions: each takes the request,
    the filesystem and the engine, and returns the response, the filesystem after
    the handler, the cleanup left pending, and the external calls it made. */
module Routes {
  import opened Base
  import opened FileSystem
  import opened Naming
  import opened Engine
  import opened Http
  import opened Multer

  const NoImageFile := "No image file provided"
  const ProcessFailed := "Failed to process image"
  const SendFailedMessage := "Failed to send processed image"
  const OutputMissing := "Output file was not created"
  const NoImageUrl := "No image URL provided"
  const FetchFailedPrefix := "Failed to fetch image: "
  const UrlProcessFailed := "Failed to process image from URL"
  const TooLarge := "File too large. Maximum size is 10MB."
  const InternalError := "Internal server error"

  /** The final error handler: only a multer size-limit error is a client error. */
  function ErrorMiddleware(e: RouteError): (r: Response)
    ensures r.status == 400 <==> e == MulterError(LimitFileSize)
    ensures r.status == 400 ==> r == JsonError(400, TooLarge)
    ensures r.status != 400 ==> r == JsonError(500, InternalError)
  {
    if e.MulterError? && e.code == LimitFileSize then JsonError(400, TooLarge)
    else JsonError(500, InternalError)
  }

  /** What one run of the engine leaves behind: the child's observable run and the filesystem. */
  datatype EngineRun = EngineRun(child: ChildRun, fs: Fs)

  /** The engine as the server sees it: given the filesystem and the two paths it is
      spawned with, how the child ends and what it did to the filesystem. */
  type EngineFn = (Fs, string, string) -> EngineRun

  /** Whether `res.sendFile` streamed the file or called back with an error before any
      header was written, so that the 500 answer can still be sent. */
  datatype Delivery = Delivered | SendFailed

  /** A call leaving the handler: fetching a URL, or spawning the engine on two paths. */
  datatype ExternalCall = FetchCall(url: string) | EngineCall(input: string, output: string)

  /** The deferred `setTimeout` task that deletes a job's two files. */
  datatype Cleanup = Cleanup(input: string, output: string)

  /** Everything one request leaves behind. */
  datatype Reply = Reply(response: Response, fs: Fs, pending: Option<Cleanup>, calls: seq<ExternalCall>)

  /** How the part shared by both handlers ends: a response is under way, or an error
      was thrown to the handler's `catch`. */
  datatype JobOutcome = Served(response: Response, fs: Fs) | Threw(message: string, fs: Fs)

  /** Invoke the engine, check that the output exists, and send it. */
  function RunJob(input: string, output: string, fs: Fs, engine: EngineFn, delivery: Delivery): (o: JobOutcome)
    ensures o.fs == engine(fs, input, output).fs
    ensures o.Served? <==>
      Classify(engine(fs, input, output).child).EngineSuccess? && Exists(o.fs, output)
    ensures o.Served? ==> (o.response.status == 200 <==> delivery == Delivered && output in o.fs.files)
    ensures o.Served? && o.response.status == 200 ==>
      output in o.fs.files && o.response.body == File(output, o.fs.files[output])
    ensures o.Served? && o.response.status != 200 ==> o.response == JsonError(500, SendFailedMessage)
    ensures o.Threw? && Classify(engine(fs, input, output).child).EngineSuccess? ==>
      o.message == OutputMissing
    ensures o.Threw? && Classify(engine(fs, input, output).child).EngineFailure? ==>
      o.message == Classify(engine(fs, input, output).child).message
  {
    var run := engine(fs, input, output);
    match Classify(run.child)
    case EngineFailure(m) => Threw(m, run.fs)
    case EngineSuccess(_) =>
      if !Exists(run.fs, output) then Threw(OutputMissing, run.fs)
      else if delivery == Delivered && output in run.fs.files then
        Served(Response(200, File(output, run.fs.files[output])), run.fs)
      else
        Served(JsonError(500, SendFailedMessage), run.fs)
  }

  /** Best-effort `fs.unlink`: a failure is logged and swallowed. */
  function UnlinkQuietly(fs: Fs, p: string): (fs': Fs)
    ensures fs'.files == fs.files - {p} && fs'.dirs == fs.dirs
  {
    match Unlink(fs, p)
    case Ok(f) => f
    case Err(_) => fs
  }

  /** `POST /remove-background`: the upload middleware, then the handler. A request the
      middleware does not admit never reaches the engine and changes nothing. */
  function ServeUpload(file: Option<FilePart>, token: Uuid, fs: Fs, engine: EngineFn, delivery: Delivery): (r: Reply)
    ensures !Admit(file, token, fs).Admitted? ==> r.calls == [] && r.fs == fs && r.pending == None
    ensures Admit(file, token, fs).NoFile? ==> r.response == JsonError(400, NoImageFile)
    ensures Admit(file, token, fs).Rejected? ==> r.response == ErrorMiddleware(Admit(file, token, fs).error)
    // An admitted request spawns the engine exactly once on its own two paths.
    ensures Admit(file, token, fs).Admitted? ==>
      var job := Admit(file, token, fs).job;
      r.calls == [EngineCall(InputPath(job), OutputPath(job))]
    // A response is under way exactly when the run succeeded and left the output in place;
    // both files are then left to the deferred cleanup.
    ensures Admit(file, token, fs).Admitted? ==>
      var job := Admit(file, token, fs).job;
      var run := engine(Admit(file, token, fs).fs, InputPath(job), OutputPath(job));
      r.pending.Some? <==> Classify(run.child).EngineSuccess? && Exists(run.fs, OutputPath(job))
    ensures Admit(file, token, fs).Admitted? ==>
      var job := Admit(file, token, fs).job;
      var run := engine(Admit(file, token, fs).fs, InputPath(job), OutputPath(job));
      r.pending.Some? ==>
        && r.pending == Some(Cleanup(InputPath(job), OutputPath(job))) && r.fs == run.fs
        && (r.response.status == 200 <==> delivery == Delivered && OutputPath(job) in run.fs.files)
        && (r.response.status == 200 ==> r.response.body == File(OutputPath(job), run.fs.files[OutputPath(job)]))
        && (r.response.status != 200 ==> r.response == JsonError(500, SendFailedMessage))
    // Otherwise the input alone is removed, and the thrown error's message is the details.
    ensures Admit(file, token, fs).Admitted? ==>
      var job := Admit(file, token, fs).job;
      var run := engine(Admit(file, token, fs).fs, InputPath(job), OutputPath(job));
      r.pending.None? ==>
        InputPath(job) !in r.fs.files && AgreeExcept(r.fs.files, run.fs.files, InputPath(job)) && r.fs.dirs == run.fs.dirs
    ensures Admit(file, token, fs).Admitted? ==>
      var job := Admit(file, token, fs).job;
      var run := engine(Admit(file, token, fs).fs, InputPath(job), OutputPath(job));
      Classify(run.child).EngineFailure? ==>
        r.response == JsonErrorWithDetails(500, ProcessFailed, Classify(run.child).message)
    ensures Admit(file, token, fs).Admitted? ==>
      var job := Admit(file, token, fs).job;
      var run := engine(Admit(file, token, fs).fs, InputPath(job), OutputPath(job));
      Classify(run.child).EngineSuccess? && !Exists(run.fs, OutputPath(job)) ==>
        r.response == JsonErrorWithDetails(500, ProcessFailed, OutputMissing)
  {
    match Admit(file, token, fs)
    case NoFile => Reply(JsonError(400, NoImageFile), fs, None, [])
    case Rejected(e) => Reply(ErrorMiddleware(e), fs, None, [])
    case Admitted(job, fs1) =>
      var input := InputPath(job);
      var output := OutputPath(job);
      var calls := [EngineCall(input, output)];
      match RunJob(input, output, fs1, engine, delivery)
      case Served(resp, fs2) => Reply(resp, fs2, Some(Cleanup(input, output)), calls)
      case Threw(msg, fs2) =>
        Reply(JsonErrorWithDetails(500, ProcessFailed, msg), UnlinkQuietly(fs2, input), None, calls)
  }

  /** What `fetch(imageUrl)` yields: a response with status, status text and a body that
      may fail to download, or a rejection. */
  datatype FetchResult =
    | Responded(status: int, statusText: string, body: Result<Bytes, string>)
    | NetworkError(message: string)

  /** `response.ok`: a status in the 200-299 range. */
  predicate FetchOk(status: int)
  {
    200 <= status <= 299
  }

  /** `imageUrl` from the JSON body; an absent field and the empty string are both falsy. */
  predicate UrlGiven(imageUrl: Option<string>)
  {
    imageUrl.Some? && imageUrl.value != ""
  }

  /** The URL handler's `catch`: 500 with the error's message, nothing pending. */
  function UrlFailure(details: string, fs: Fs, calls: seq<ExternalCall>): Reply
  {
    Reply(JsonErrorWithDetails(500, UrlProcessFailed, details), fs, None, calls)
  }

  /** `POST /remove-background-url`. Every failure after the URL check is answered 500 with
      the thrown error's message as details, and the handler itself never deletes a file. */
  function ServeUrl(imageUrl: Option<string>, fetched: FetchResult, token: Uuid, fs: Fs,
                    engine: EngineFn, delivery: Delivery): (r: Reply)
    ensures !UrlGiven(imageUrl) ==> r == Reply(JsonError(400, NoImageUrl), fs, None, [])
    ensures UrlGiven(imageUrl) ==> |r.calls| >= 1 && r.calls[0] == FetchCall(imageUrl.value)
    // A fetch that fails writes nothing and calls nothing else.
    ensures UrlGiven(imageUrl) && fetched.NetworkError? ==>
      r == UrlFailure(fetched.message, fs, [FetchCall(imageUrl.value)])
    ensures UrlGiven(imageUrl) && fetched.Responded? && !FetchOk(fetched.status) ==>
      r == UrlFailure(FetchFailedPrefix + fetched.statusText, fs, [FetchCall(imageUrl.value)])
    ensures UrlGiven(imageUrl) && fetched.Responded? && FetchOk(fetched.status) && fetched.body.Err? ==>
      r == UrlFailure(fetched.body.error, fs, [FetchCall(imageUrl.value)])
    // The download is staged at `uploads/url-image-<uuid>.jpg`; a failed write ends the request.
    ensures UrlGiven(imageUrl) && fetched.Responded? && FetchOk(fetched.status) && fetched.body.Ok? ==>
      var job := Job(token, FromUrl);
      var staged := WriteFile(fs, InputPath(job), fetched.body.value);
      && (staged.Err? ==> r == UrlFailure(NodeMessage("open", staged.error), fs, [FetchCall(imageUrl.value)]))
      && (staged.Ok? ==> r == ServeStaged(imageUrl.value, token, staged.value, engine, delivery))
    ensures r.pending.None? ==> r.response.status != 200
  {
    if !UrlGiven(imageUrl) then Reply(JsonError(400, NoImageUrl), fs, None, [])
    else
      var fetchOnly := [FetchCall(imageUrl.value)];
      match fetched
      case NetworkError(m) => UrlFailure(m, fs, fetchOnly)
      case Responded(status, text, body) =>
        if !FetchOk(status) then UrlFailure(FetchFailedPrefix + text, fs, fetchOnly)
        else
          match body
          case Err(m) => UrlFailure(m, fs, fetchOnly)
          case Ok(bytes) =>
            var job := Job(token, FromUrl);
            var input := InputPath(job);
            var output := OutputPath(job);
            match WriteFile(fs, input, bytes)
            case Err(e) => UrlFailure(NodeMessage("open", e), fs, fetchOnly)
            case Ok(fs1) =>
              ServeStaged(imageUrl.value, token, fs1, engine, delivery)
  }

  /** The URL handler once the download is staged: the engine runs exactly once, on the
      job's two paths, and a failure leaves the staged input where it is. */
  function ServeStaged(url: string, token: Uuid, fs: Fs, engine: EngineFn, delivery: Delivery): (r: Reply)
    ensures var job := Job(token, FromUrl);
      var run := engine(fs, InputPath(job), OutputPath(job));
      && r.calls == [FetchCall(url), EngineCall(InputPath(job), OutputPath(job))]
      && r.fs == run.fs
      && (r.pending.Some? <==> Classify(run.child).EngineSuccess? && Exists(run.fs, OutputPath(job)))
      && (r.pending.Some? ==>
            && r.pending == Some(Cleanup(InputPath(job), OutputPath(job)))
            && (r.response.status == 200 <==> delivery == Delivered && OutputPath(job) in run.fs.files)
            && (r.response.status == 200 ==> r.response.body == File(OutputPath(job), run.fs.files[OutputPath(job)]))
            && (r.response.status != 200 ==> r.response == JsonError(500, SendFailedMessage)))
      && (Classify(run.child).EngineFailure? ==>
            r.response == JsonErrorWithDetails(500, UrlProcessFailed, Classify(run.child).message))
      && (Classify(run.child).EngineSuccess? && !Exists(run.fs, OutputPath(job)) ==>
            r.response == JsonErrorWithDetails(500, UrlProcessFailed, OutputMissing))
  {
    var job := Job(token, FromUrl);
    var input := InputPath(job);
    var output := OutputPath(job);
    var calls := [FetchCall(url), EngineCall(input, output)];
    match RunJob(input, output, fs, engine, delivery)
    case Served(resp, fs2) => Reply(resp, fs2, Some(Cleanup(input, output)), calls)
    case Threw(msg, fs2) => UrlFailure(msg, fs2, calls)
  }

  /** The deferred cleanup task: unlink the input, then the output, inside one `try`;
      the first failure is logged and ends the task. */
  function RunCleanup(fs: Fs, c: Cleanup): (fs': Fs)
    ensures fs'.dirs == fs.dirs
    ensures c.input in fs.files ==> fs'.files == fs.files - {c.input, c.output}
    ensures c.input !in fs.files ==> fs' == fs
  {
    match Unlink(fs, c.input)
    case Err(_) => fs
    case Ok(fs1) =>
      match Unlink(fs1, c.output)
      case Err(_) => fs1
      case Ok(fs2) => fs2
  }

  /** The startup directories exist, as directories. */
  predicate Provisioned(fs: Fs)
  {
    UploadsDir in fs.dirs && OutputsDir in fs.dirs && UploadsDir !in fs.files && OutputsDir !in fs.files
  }

  /** Neither file of the job exists yet: the token is fresh. */
  predicate Fresh(fs: Fs, j: Job)
  {
    !Exists(fs, InputPath(j)) && !Exists(fs, OutputPath(j))
  }

  /** How a file part in the `image` field fares in the upload middleware: a disallowed
      mimetype is a plain error and ends as 500, whatever the size; an allowed but
      oversized file ends as 400; an allowed file within the limit is staged. In no
      case before staging is the engine spawned. */
  lemma UploadAdmissionStatus(part: FilePart, token: Uuid, fs: Fs, engine: EngineFn, delivery: Delivery)
    requires part.originalname != "" && '/' !in part.originalname && part.fieldname == ImageField
    requires Provisioned(fs) && Fresh(fs, Job(token, Uploaded(part.originalname)))
    ensures var r := ServeUpload(Some(part), token, fs, engine, delivery);
      && (!FileFilter(part.mimetype) ==> r.response == JsonError(500, InternalError) && r.calls == [])
      && (FileFilter(part.mimetype) && |part.content| > MaxFileSize ==>
            r.response == JsonError(400, TooLarge) && r.calls == [] && r.fs == fs)
      && (FileFilter(part.mimetype) && |part.content| <= MaxFileSize ==> |r.calls| == 1)
  {
    var job := Job(token, Uploaded(part.originalname));
    JobPathsInTheirDirs(job);
    assert WriteFile(fs, InputPath(job), part.content).Ok?;
  }

  /** A named part in a field other than `image`, and an allowed image whose staging
      write fails, are both refused by the middleware and answered with the error
      middleware's generic 500: nothing is spawned and nothing changes. */
  lemma UploadRefusedAsServerError(part: FilePart, token: Uuid, fs: Fs, engine: EngineFn, delivery: Delivery)
    requires part.originalname != ""
    requires part.fieldname != ImageField
             || (FileFilter(part.mimetype)
                 && WriteFile(fs, InputPath(Job(token, Uploaded(part.originalname))), part.content).Err?)
    ensures ServeUpload(Some(part), token, fs, engine, delivery) == Reply(JsonError(500, InternalError), fs, None, [])
  {
    var a := Admit(Some(part), token, fs);
    assert a.Rejected? && a.error != MulterError(LimitFileSize);
  }

  /** The upload handler's reply, from the middleware's staging and the job's outcome. */
  lemma UploadReply(file: Option<FilePart>, token: Uuid, fs: Fs, engine: EngineFn, delivery: Delivery,
                    job: Job, staged: Fs)
    requires Admit(file, token, fs) == Admitted(job, staged)
    ensures var o := RunJob(InputPath(job), OutputPath(job), staged, engine, delivery);
      var calls := [EngineCall(InputPath(job), OutputPath(job))];
      ServeUpload(file, token, fs, engine, delivery) ==
        if o.Served? then Reply(o.response, o.fs, Some(Cleanup(InputPath(job), OutputPath(job))), calls)
        else Reply(JsonErrorWithDetails(500, ProcessFailed, o.message), UnlinkQuietly(o.fs, InputPath(job)), None, calls)
  {
  }

  /** The URL handler's reply once an ok fetch was staged, from the job's outcome. */
  lemma UrlReply(url: string, token: Uuid, fs: Fs, engine: EngineFn, delivery: Delivery)
    ensures var job := Job(token, FromUrl);
      var o := RunJob(InputPath(job), OutputPath(job), fs, engine, delivery);
      var calls := [FetchCall(url), EngineCall(InputPath(job), OutputPath(job))];
      ServeStaged(url, token, fs, engine, delivery) ==
        if o.Served? then Reply(o.response, o.fs, Some(Cleanup(InputPath(job), OutputPath(job))), calls)
        else UrlFailure(o.message, o.fs, calls)
  {
  }

  /** The cleanup undoes a job that created its input and then its output. */
  lemma CleanupUndoesJob(fs: Fs, c: Cleanup, input: Bytes, output: Bytes)
    requires c.input != c.output && c.input !in fs.files && c.output !in fs.files
    ensures RunCleanup(fs.(files := fs.files[c.input := input][c.output := output]), c) == fs
  {
    var after := fs.(files := fs.files[c.input := input][c.output := output]);
    assert after.files - {c.input, c.output} == fs.files;
  }

  /** Running the cleanup a second time changes nothing more. */
  lemma CleanupIdempotent(fs: Fs, c: Cleanup)
    ensures RunCleanup(RunCleanup(fs, c), c) == RunCleanup(fs, c)
  {
  }

  /** The cleanup of one job leaves every file of a different job as it was. */
  lemma CleanupSparesOtherJobs(fs: Fs, mine: Job, other: Job)
    requires mine != other
    ensures var fs' := RunCleanup(fs, Cleanup(InputPath(mine), OutputPath(mine)));
      forall p :: p == InputPath(other) || p == OutputPath(other) ==>
        (p in fs'.files <==> p in fs.files) && (p in fs.files ==> fs'.files[p] == fs.files[p])
  {
    JobsDoNotShareFiles(mine, other);
  }
}

=== FILE: script.dfy ===
/** The fixed texts `model.py` prints. */
module ScriptText {
  import opened Text

  /** The usage line. */
  const Usage := "Usage: " + "python " + "model.py " + "<input_path> " + "<output_path>"

  /** The usage line does not contain the success marker. */
  lemma UsageHasNoMarker()
    ensures !IsSubstring("SUCCESS", Usage + "\n")
  {
    UsageLacksCapitalS();
    MissingCharExcludesSubstring(Usage + "\n", "SUCCESS", 'S');
  }

  lemma UsageLacksCapitalS()
    ensures 'S' !in Usage + "\n"
  {
    assert 'S' !in "Usage: ";
    assert 'S' !in "python ";
    assert 'S' !in "model.py ";
    assert 'S' !in "<input_path> ";
    assert 'S' !in "<output_path>";
  }
}

/** The engine script `model.py`: a short chain of guards around one call of the
    background-removal library, reduced to what it prints, its exit code and the
    files it leaves. The library call is an opaque function that may raise. */
module Script {
  import opened Base
  import opened Text
  import opened FileSystem
  import opened ScriptText

  const SuccessLine := "SUCCESS\n"
  const ErrorPrefix := "ERROR: "

  /** `rembg.remove` on the input bytes: the result bytes, or the text of the exception it raised. */
  type Remover = Bytes -> Result<Bytes, string>

  /** How writing the result can fail beyond what the filesystem explains: `open` raises
      and nothing is created, or `write` raises after `open` created the file with partial content. */
  datatype WriteFault = NoWriteFault | OpenFault(message: string) | PartialWrite(message: string, written: Bytes)

  /** What one run meets that the model cannot derive from the filesystem: the library
      imports fail, `os.makedirs` raises, reading the input raises, writing the output
      raises; and the text the library writes to stderr while it is imported
      (`importNoise`: warnings) and while `remove` runs (`removeNoise`: warnings, the
      progress of a model download). */
  datatype Faults = Faults(importFault: Option<string>, makedirsFault: Option<string>,
                           readFault: Option<string>, writeFault: WriteFault,
                           importNoise: string, removeNoise: string)

  /** Nothing raises except perhaps the library call, and the library writes the given texts to stderr. */
  function CleanRun(importNoise: string, removeNoise: string): Faults
  {
    Faults(None, None, None, NoWriteFault, importNoise, removeNoise)
  }

  /** The library writes nothing to stderr. */
  predicate Quiet(f: Faults)
  {
    f.importNoise == "" && f.removeNoise == ""
  }

  /** One run of the script: everything it printed to stdout and stderr, its exit code, and
      the filesystem afterwards. */
  datatype ProcessExit = ProcessExit(stdout: string, stderr: string, code: int, fs: Fs)

  /** `remove_background`'s result, what it printed, and what the library wrote to stderr. */
  datatype Attempt = Attempt(ok: bool, stdout: string, stderr: string, fs: Fs)

  /** A line `print`ed for a caught exception. */
  function ErrorLine(message: string): string
  {
    ErrorPrefix + message + "\n"
  }

  /** The interpreter's report of an uncaught exception on stderr (its exact text is not modelled). */
  function Traceback(message: string): (t: string)
    ensures t != ""
  {
    "Traceback (most recent call last):\n" + message + "\n"
  }

  /** Read the input, remove its background, write the result, and print `SUCCESS` last;
      any exception on the way is printed as `ERROR: <str(e)>` and yields false. Only the
      output path can change, and only once the library call returned. */
  function RemoveBackground(input: string, output: string, fs: Fs, remove: Remover, faults: Faults): (a: Attempt)
    ensures a.ok ==>
      && a.stdout == SuccessLine && a.stderr == faults.removeNoise
      && input in fs.files && faults.readFault.None? && remove(fs.files[input]).Ok?
      && a.fs.files == fs.files[output := remove(fs.files[input]).value]
    ensures !a.ok ==> StartsWith(a.stdout, ErrorPrefix)
    // Reading the input fails: the library is never called.
    ensures ReadFile(fs, input).Err? ==>
      a == Attempt(false, ErrorLine(PythonMessage(ReadFile(fs, input).error)), "", fs)
    ensures input in fs.files && faults.readFault.Some? ==>
      a == Attempt(false, ErrorLine(faults.readFault.value), "", fs)
    // The library raises: its message is printed and nothing is written.
    ensures input in fs.files && faults.readFault.None? && remove(fs.files[input]).Err? ==>
      a == Attempt(false, ErrorLine(remove(fs.files[input]).error), faults.removeNoise, fs)
    // Writing the result fails: the exception's text is printed.
    ensures input in fs.files && faults.readFault.None? && remove(fs.files[input]).Ok? ==>
      var w := WriteFile(fs, output, remove(fs.files[input]).value);
      && (w.Err? ==> a == Attempt(false, ErrorLine(PythonMessage(w.error)), faults.removeNoise, fs))
      && (w.Ok? && faults.writeFault.OpenFault? ==>
            a == Attempt(false, ErrorLine(faults.writeFault.message), faults.removeNoise, fs))
      && (w.Ok? && faults.writeFault.PartialWrite? ==>
            !a.ok && a.stdout == ErrorLine(faults.writeFault.message)
            && a.fs.files == fs.files[output := faults.writeFault.written])
    ensures a.fs.dirs == fs.dirs
    ensures AgreeExcept(a.fs.files, fs.files, output)
  {
    var read: Result<Bytes, IoError> := ReadFile(fs, input);
    if read.Err? then Attempt(false, ErrorLine(PythonMessage(read.error)), "", fs)
    else if faults.readFault.Some? then Attempt(false, ErrorLine(faults.readFault.value), "", fs)
    else
      var noise := faults.removeNoise;
      match remove(read.value)
      case Err(m) => Attempt(false, ErrorLine(m), noise, fs)
      case Ok(result) =>
        match WriteFile(fs, output, result)
        case Err(e) => Attempt(false, ErrorLine(PythonMessage(e)), noise, fs)
        case Ok(written) =>
          match faults.writeFault
          case NoWriteFault => Attempt(true, SuccessLine, noise, written)
          case OpenFault(m) => Attempt(false, ErrorLine(m), noise, fs)
          case PartialWrite(m, w) => Attempt(false, ErrorLine(m), noise, fs.(files := fs.files[output := w]))
  }

  /** The message for an input path that does not exist. */
  function MissingInputLine(input: string): string
  {
    ErrorLine("Input file " + Quoted(input) + " does not exist")
  }

  /** The output's directory is named and does not exist, so `main` calls `os.makedirs`. */
  predicate NeedsOutputDir(fs: Fs, output: string)
  {
    DirName(output) != "" && !Exists(fs, DirName(output))
  }

  /** `python3 model.py <args>`: the module-level imports, then `main()`. */
  function Main(args: seq<string>, fs: Fs, remove: Remover, faults: Faults): (p: ProcessExit)
    ensures p.code == 0 || p.code == 1
    // Whatever happens, stderr begins with what the imports wrote.
    ensures StartsWith(p.stderr, faults.importNoise)
    // Exit 0 only after the result of the library call on the input was written to the output.
    ensures p.code == 0 ==>
      && |args| == 2 && args[0] in fs.files && remove(fs.files[args[0]]).Ok?
      && args[1] in p.fs.files && p.fs.files[args[1]] == remove(fs.files[args[0]]).value
      && IsSubstring("SUCCESS", p.stdout) && p.stderr == faults.importNoise + faults.removeNoise
    // A failed import is an uncaught exception: a traceback on stderr and nothing on stdout.
    ensures faults.importFault.Some? ==>
      p == ProcessExit("", faults.importNoise + Traceback(faults.importFault.value), 1, fs)
    // A wrong argument count prints the usage line and never the marker.
    ensures faults.importFault.None? && |args| != 2 ==>
      p == ProcessExit(Usage + "\n", faults.importNoise, 1, fs) && !IsSubstring("SUCCESS", p.stdout)
    // A missing input is reported before the library is called or anything is written.
    ensures faults.importFault.None? && |args| == 2 && !Exists(fs, args[0]) ==>
      p == ProcessExit(MissingInputLine(args[0]), faults.importNoise, 1, fs)
    // A missing output directory is created before processing; if that raises, the traceback goes to stderr.
    ensures faults.importFault.None? && |args| == 2 && Exists(fs, args[0]) && NeedsOutputDir(fs, args[1])
            && faults.makedirsFault.Some? ==>
      p == ProcessExit("", faults.importNoise + Traceback(faults.makedirsFault.value), 1, fs)
    ensures faults.importFault.None? && |args| == 2 && Exists(fs, args[0]) && faults.makedirsFault.None? ==>
      p.fs.dirs == (if NeedsOutputDir(fs, args[1]) then fs.dirs + {DirName(args[1])} else fs.dirs)
    // Exceptions caught in `remove_background` are reported on stdout.
    ensures faults.importFault.None? && |args| == 2 && Exists(fs, args[0])
            && !(NeedsOutputDir(fs, args[1]) && faults.makedirsFault.Some?) && p.code == 1 ==>
      StartsWith(p.stdout, ErrorPrefix)
    // With a quiet library, stderr carries only uncaught exceptions.
    ensures Quiet(faults) && p.stderr != "" ==> p.code == 1 && p.stdout == ""
    // Only the output path can gain, lose or change a file.
    ensures |args| == 2 ==> AgreeExcept(p.fs.files, fs.files, args[1])
    ensures |args| != 2 ==> p.fs == fs
  {
    var noise := faults.importNoise;
    if faults.importFault.Some? then ProcessExit("", noise + Traceback(faults.importFault.value), 1, fs)
    else if |args| != 2 then
      UsageHasNoMarker();
      ProcessExit(Usage + "\n", noise, 1, fs)
    else
      var input := args[0];
      var output := args[1];
      if !Exists(fs, input) then ProcessExit(MissingInputLine(input), noise, 1, fs)
      else
        var missing := NeedsOutputDir(fs, output);
        if missing && faults.makedirsFault.Some? then
          ProcessExit("", noise + Traceback(faults.makedirsFault.value), 1, fs)
        else
          var fs1 := if missing then fs.(dirs := fs.dirs + {DirName(output)}) else fs;
          var a := RemoveBackground(input, output, fs1, remove, faults);
          if a.ok then
            PrefixIsSubstring(a.stdout, "SUCCESS");
            ProcessExit(a.stdout, noise + a.stderr, 0, a.fs)
          else
            ProcessExit(a.stdout, noise + a.stderr, 1, a.fs)
  }
}

=== FILE: text.dfy ===
/** Substring search on strings, as used by the engine invoker to look for the
    success marker in the child's standard output. */
module Text {

  /** `t` occurs in `s` starting at index `i`. */
  ghost predicate OccursAt(s: string, t: string, i: int)
  {
    0 <= i && i + |t| <= |s| && s[i..i + |t|] == t
  }

  /** Reference meaning of JavaScript's `s.includes(t)`: some index of `s` starts a copy of `t`. */
  ghost predicate IsSubstring(t: string, s: string)
  {
    exists i :: OccursAt(s, t, i)
  }

  predicate StartsWith(s: string, t: string)
  {
    |t| <= |s| && s[..|t|] == t
  }

  /** When `t` does not start `s`, its occurrences in `s` are exactly the
      occurrences in `s[1..]`, shifted by one. */
  lemma ShiftOccurrence(s: string, t: string)
    requires s != [] && !StartsWith(s, t)
    ensures IsSubstring(t, s) <==> IsSubstring(t, s[1..])
  {
    if IsSubstring(t, s) {
      var i :| OccursAt(s, t, i);
      assert i != 0;
      assert s[1..][i - 1..i - 1 + |t|] == s[i..i + |t|];
      assert OccursAt(s[1..], t, i - 1);
    }
    if IsSubstring(t, s[1..]) {
      var j :| OccursAt(s[1..], t, j);
      assert s[j + 1..j + 1 + |t|] == s[1..][j..j + |t|];
      assert OccursAt(s, t, j + 1);
    }
  }

  /** Executable `s.includes(t)`: tries each start position of `s` from left to right. */
  function Includes(s: string, t: string): (r: bool)
    ensures r <==> IsSubstring(t, s)
    decreases |s|
  {
    if StartsWith(s, t) then
      assert OccursAt(s, t, 0);
      true
    else if s == [] then
      false
    else
      ShiftOccurrence(s, t);
      Includes(s[1..], t)
  }

  /** A string lacking one of the characters of `t` cannot contain `t`. */
  lemma MissingCharExcludesSubstring(s: string, t: string, c: char)
    requires c in t && c !in s
    ensures !IsSubstring(t, s)
  {
  }

  /** A copy of `t` inside `b` is still inside `a + b + c`. */
  lemma SubstringOfMiddle(t: string, a: string, b: string, c: string)
    requires IsSubstring(t, b)
    ensures IsSubstring(t, a + b + c)
  {
    var i :| OccursAt(b, t, i);
    var s := a + b + c;
    assert s[|a| + i..|a| + i + |t|] == b[i..i + |t|];
    assert OccursAt(s, t, |a| + i);
  }

  /** `t` occurs in itself. */
  lemma SelfIsSubstring(t: string)
    ensures IsSubstring(t, t)
  {
    assert OccursAt(t, t, 0);
  }

  /** A string that starts with `t` contains it. */
  lemma PrefixIsSubstring(s: string, t: string)
    requires StartsWith(s, t)
    ensures IsSubstring(t, s)
  {
    assert OccursAt(s, t, 0);
  }
}
